=== FILE: README.md ===
# YouTube List View content script, modelled in Dafny

This project models the content script `youtube-list-view/content.js` of the
YouTube List View browser extension. The script switches the subscriptions
feed to a list layout and adds a short description under every video. It
does five things that have precise behaviour, and each one is modelled and
proved here:

- **Description extraction** (`MetaDescription`, `Text`). `extractDescription`
  finds the first `<meta name="description" content="...">` tag with the
  regular expression `<meta name="description" content="([^"]*)"`. It
  decodes six HTML entities, `&amp;` first, and trims the result. It returns
  `null` (here `None`) when nothing matches or the capture is empty.
- **Description cache** (`DescriptionCache`). This is a map from watch URL to
  a description and a timestamp, with a one-hour time to live.
  `fetchDescription` serves fresh entries. On a miss it fetches the page,
  stores what it extracts and returns it. It retries once on failure, and a
  failure never writes to the cache. A ten-minute timer purges expired
  entries. The clock and the network are parameters.
- **Fetch queue** (`FetchQueue`). `processFetchQueue` moves tasks from a FIFO
  queue into at most `maxConcurrentFetches` (10) running tasks, counted by
  `activeFetches`. A task settling is its own event: the counter goes down
  and the queue is pumped again.
- **Page attribute** (`PageAttribute`). `ensurePageAttribute` decides the
  `page-subtype` attribute of `ytd-browse`, which turns the list layout on.
- **Per-item processing** (`FeedItem`). Each feed item is an abstract record.
  It holds the `data-*` flags the script keeps, which of YouTube's elements
  it contains, and how many of the script's own elements (header, avatar
  link, cloned channel name, description) it holds. The module models
  `addChannelHeader`, one item's turn in `processItems`, and the task that
  `addDescriptionToItem` builds.

`Feed` puts these together as a sequential state machine. Its events are
`yt-navigate-start`, `yt-navigate-finish`, the settings read before
`processItems` runs its loop, YouTube rendering more items, a running task
settling, and the purge timer. `Execute` proves that the invariant `Inv`
holds after any sequence of events. Under `Inv`:

- no more than `maxConcurrentFetches` tasks are running;
- the pool is settled, meaning the queue is empty or every slot is taken;
- every pending task belongs to an item marked `descFetching` and not
  `descAdded`, and that item has no other pending task;
- no item is ever queued twice.

Three facts about `content.js` shape the model:

- a failed fetch returns `null` and writes nothing to the cache;
- the only cache is the in-memory `Map`, lost when the page reloads;
- nodes the script moves or clones are never restored.

## Model

| member | source | states |
|---|---|---|
| Text.Includes | youtube-list-view/content.js:18 | `includes` is true exactly when the pattern occurs at some index of the string |
| Text.Trim | youtube-list-view/content.js:52 | the result neither starts nor ends with ECMAScript white space, and it is the input with a white-space prefix and a white-space suffix cut off |
| Text.TrimUnique | youtube-list-view/content.js:52 | any text obtained by cutting white space off both ends until neither end is white space equals `trim`'s result, so `trim` is fully characterised |
| Text.TrimIdempotent | youtube-list-view/content.js:52 | trimming twice is trimming once |
| Text.ReplaceAllAbsent | youtube-list-view/content.js:46-51 | a global replace leaves text in which the pattern does not occur unchanged |
| Text.ReplaceAllLeftmost | youtube-list-view/content.js:46-51 | a global replace keeps the text before the leftmost occurrence, replaces that occurrence, and goes on after it without rescanning the replacement; with `ReplaceAllAbsent` this determines the result for every input |
| Text.ReplaceAllShorter | youtube-list-view/content.js:46-51 | a replacement no longer than the pattern never lengthens the text |
| Text.ReplaceAllChars | youtube-list-view/content.js:46-51 | a global replace introduces only characters of the input or of the replacement |
| MetaDescription.MatchAtIff | youtube-list-view/content.js:43 | a match attempted at one index succeeds with a capture exactly when the regular expression matches there: the prefix, then text with no quote, then a quote |
| MetaDescription.SearchNoneIff | youtube-list-view/content.js:43 | `match` finds nothing exactly when the pattern matches at no index |
| MetaDescription.SearchFindsLeftmost | youtube-list-view/content.js:43-44 | what `match` finds is the capture of the leftmost match, and it holds no quote |
| MetaDescription.LeftmostIsFound | youtube-list-view/content.js:43-44 | the capture of the leftmost match is what `match` returns |
| MetaDescription.DecodeEntities | youtube-list-view/content.js:45-51 | decoding never lengthens the text and leaves text without `&` unchanged |
| MetaDescription.DecodeEntityFree | youtube-list-view/content.js:45-51 | text in which none of the six entities occurs is not changed by decoding |
| MetaDescription.DecodeAmpersand | youtube-list-view/content.js:46 | `&amp;` decodes to `&` |
| MetaDescription.DecodeLessThan | youtube-list-view/content.js:47 | `&lt;` passes the `&amp;` step untouched and decodes to `<` |
| MetaDescription.DecodeQuote | youtube-list-view/content.js:49 | `&quot;` passes the three earlier steps untouched and decodes to `"` |
| MetaDescription.DecodeApostrophe | youtube-list-view/content.js:50 | `&#39;` passes the four earlier steps untouched and decodes to `'` |
| MetaDescription.DecodeNonBreakingSpace | youtube-list-view/content.js:51 | `&nbsp;` passes the five earlier steps untouched and decodes to a plain space |
| MetaDescription.DoubleDecoding | youtube-list-view/content.js:46-47 | because `&amp;` is replaced first, `&amp;lt;` decodes to `<` |
| MetaDescription.DecodeGreaterThan | youtube-list-view/content.js:47-48 | `&gt;` passes the `&amp;` and `&lt;` steps untouched and decodes to `>` |
| MetaDescription.ExtractDescription | youtube-list-view/content.js:41-58 | a non-null description has no leading or trailing white space |
| MetaDescription.ExtractDescriptionSpec | youtube-list-view/content.js:43-57 | the result is null exactly when there is no match or the leftmost match captured nothing; otherwise it is the trimmed, decoded, quote-free capture of the leftmost match |
| MetaDescription.PlainDescription | youtube-list-view/content.js:43-52 | a capture without `&` is only trimmed, and the description holds no quote |
| DescriptionCache.Lookup | youtube-list-view/content.js:61-64 | the cache answers exactly when the URL has an entry younger than the expiration, and then it returns the stored description, a stored null included |
| DescriptionCache.Purge | youtube-list-view/content.js:257-262 | the purge keeps exactly the entries whose age is at most the expiration, each unchanged |
| DescriptionCache.PurgeKeepsServed | youtube-list-view/content.js:61-63 | no lookup at the purge's time or later can tell that a purge happened |
| DescriptionCache.ExpirationBoundary | youtube-list-view/content.js:62 | an entry aged exactly the expiration survives the purge but is not served |
| DescriptionCache.PurgeIdempotent | youtube-list-view/content.js:259-260 | a second purge at the same time deletes nothing more |
| DescriptionCache.ExpiryIsPermanent | youtube-list-view/content.js:62 | an entry not served at one time is not served at any later time |
| DescriptionCache.FetchDescription | youtube-list-view/content.js:60-86 | at most `retries + 1` requests; no other URL's entry changes; a cache write stores the extracted description of a received page with its arrival time, and that description is returned; no request is made exactly when the first check hits, and then the cached value is returned with the cache unchanged |
| DescriptionCache.FetchAllFailed | youtube-list-view/content.js:79-85 | when every attempt misses the cache and fails, the result is null, the cache is unchanged, and one request was made per attempt |
| DescriptionCache.FetchStoresDelivered | youtube-list-view/content.js:66-78 | the first received page after failed attempts is extracted, stored under the URL with its arrival time, and returned |
| DescriptionCache.FetchThenServe | youtube-list-view/content.js:61-76 | after a fetch wrote to the cache, a lookup while the new entry is fresh returns the fetched description without a new request |
| PageAttribute.IsSubscriptionsPage | youtube-list-view/content.js:17-19 | the page is the subscriptions feed exactly when `/feed/subscriptions` occurs in its URL |
| PageAttribute.EnsurePageAttribute | youtube-list-view/content.js:21-39 | nothing changes while navigating or without `ytd-browse`; otherwise the attribute is `subscriptions` exactly when enabled on the subscriptions feed; any other value is left alone; the only writes are setting or removing `subscriptions` |
| PageAttribute.EnsurePageAttributeIdempotent | youtube-list-view/content.js:24-38 | applying the decision twice equals applying it once |
| FetchQueue.Pump | youtube-list-view/content.js:88-99 | the pump starts exactly the first free-slot-many queued tasks, in FIFO order; it leaves the rest queued and counts each start; it stops with the queue empty or every slot taken, and never takes the counter past the cap |
| FetchQueue.Enqueue | youtube-list-view/content.js:193 | pushed tasks join the end of the queue; the counter and the running tasks are unchanged |
| FetchQueue.Complete | youtube-list-view/content.js:93-96 | a settling task lowers the counter by one and re-pumps; from a settled pool it either frees a slot (empty queue) or hands that slot to the head of the queue |
| FetchQueue.PumpIdempotent | youtube-list-view/content.js:89 | a pump right after a pump starts nothing |
| FeedItem.AddChannelHeader | youtube-list-view/content.js:101-149 | no-op while navigating, once `headerProcessed`, or without a lockup and metadata model; otherwise it marks the item processed, the avatar ends in the header and a present channel row is cloned; an item is only ever marked processed when it had both models; the description flags are untouched |
| FeedItem.AddChannelHeaderAddsAtMostOne | youtube-list-view/content.js:110-146 | each header, avatar link and cloned channel name is created only when none exists, so a run adds at most one of each, a processed item has a header, and an item with at most one of each keeps that |
| FeedItem.AddChannelHeaderIdempotent | youtube-list-view/content.js:102-103 | running the header step twice equals running it once |
| FeedItem.QueuedUrl | youtube-list-view/content.js:187-190 | a task URL exists exactly when the item is neither `descAdded` nor `descFetching` and has a non-empty watch link, and it is that link |
| FeedItem.VisitItem | youtube-list-view/content.js:184-194 | the visit queues a task exactly for the item's queueable URL and then sets `descFetching`; the header state is that of `addChannelHeader`; `descAdded` and the descriptions are untouched |
| FeedItem.VisitQueuesOnce | youtube-list-view/content.js:187-192 | a second visit of a visited item never queues another task |
| FeedItem.FinishTask | youtube-list-view/content.js:151-172 | an early return changes nothing; otherwise, on success and on error alike, the item ends `descAdded` and not `descFetching`; a description is inserted exactly when the fetch produced a non-blank one, a metadata row exists and no description is there yet, and it is then the only one |
| FeedItem.EarlyReturnStrandsItem | youtube-list-view/content.js:153 | a task that returned early leaves its item `descFetching`, and no later visit queues it again |
| FeedItem.FinishedNotRequeued | youtube-list-view/content.js:165-169 | an item whose task ran is never queued again |
| Feed.Initial | youtube-list-view/content.js:12-15 | the state at load is not navigating, has an empty cache, an empty queue, no running task and a zero counter, has queued nothing yet, and satisfies the invariant |
| Feed.PumpKeepsPending | youtube-list-view/content.js:88-98 | pumping loses and duplicates no pending task |
| Feed.CompleteDropsOne | youtube-list-view/content.js:93-96 | a settling task removes exactly its own item from the pending ones |
| Feed.TasksFrom | youtube-list-view/content.js:184-194 | every task the loop queues is for an item of the feed and carries that item's queueable URL |
| Feed.TasksInFeedOrder | youtube-list-view/content.js:184-194 | the loop queues tasks in feed order, with strictly increasing item positions, so no item gets two tasks in one pass |
| Feed.TasksFromCount | youtube-list-view/content.js:184-194 | exactly the items whose visit queues a task get one task each |
| Feed.VisitAllTasks | youtube-list-view/content.js:184-194 | the loop queues its tasks in feed order, each for an item whose visit queued exactly that task's URL, and exactly one task for every item whose visit queues one |
| Feed.VisitAllFacts | youtube-list-view/content.js:187-192 | the loop loses no description flag; each queued item was neither described nor being fetched and ends being fetched |
| Feed.StartNavigation | youtube-list-view/content.js:244-248 | navigation start blocks the script and removes the layout attribute exactly when `ytd-browse` exists at that moment; the URL, items, cache, queue and queued record are unchanged |
| Feed.ItemsLoaded | youtube-list-view/content.js:176-197 | the settings callback reads the URL, `ytd-browse` and its current attribute afresh, keeps the invariant and leaves the cache alone; while navigating it writes no layout attribute, and otherwise the attribute becomes what `ensurePageAttribute` decides for the value it read; when disabled or off the feed it touches neither items nor queue; otherwise every item gets the header `addChannelHeader` builds, keeps `descAdded`, its descriptions and its watch link, and ends `descFetching` exactly when it was or is queueable; the pool is the old one with the loop's tasks appended to the queue and then pumped, so every task pending before stays pending and each queueable item gains exactly one pending task |
| Feed.VisitAllItems | youtube-list-view/content.js:184-192 | after the loop each item has the header of `addChannelHeader`, keeps `descAdded`, its descriptions and its watch link, and is being fetched exactly when it was before or its visit queued a task |
| Feed.FinishNavigation | youtube-list-view/content.js:231-239 | `init` unblocks the script, keeps the invariant and the cache, and leaves the layout attribute as `ensurePageAttribute` decides for the value it read: `subscriptions` exactly when enabled on the subscriptions feed where `ytd-browse` exists, any other value left alone; when disabled or off the feed it touches neither items nor queue; otherwise every item gets the header `addChannelHeader` builds outside navigation, keeps `descAdded`, its descriptions and its watch link, and ends `descFetching` exactly when it was or is queueable, every task pending before stays pending, and each queueable item gains exactly one pending task |
| Feed.AddItems | youtube-list-view/content.js:217-226 | exactly the newly rendered items are appended after the existing, unchanged ones; the invariant holds and nothing else in the state changes |
| Feed.SettleTask | youtube-list-view/content.js:93-96 | a settling task keeps the invariant, leaves the navigation flag, URL and attribute alone, and the pool becomes the completed-and-pumped one; it changes only its own item and no cache entry for another URL; an early task changes no item and no cache entry; any other fetches through the cache, whose result is the new cache, and finishes its item with the fetched description (or as failed when it threw), leaving it `descAdded` and not `descFetching` |
| Feed.PurgeTick | youtube-list-view/content.js:257-262 | the timer purges the cache; items, pool, queued record, navigation flag, URL, `ytd-browse` and attribute are unchanged |
| Feed.Step | youtube-list-view/content.js:241-262 | every possible event keeps the invariant |
| Feed.Execute | youtube-list-view/content.js:88-99 | after any sequence of events no more than `maxConcurrentFetches` tasks run, the queue is empty or every slot is taken, and no item was ever queued twice |
| Feed.NavigationKeepsLayoutOff | youtube-list-view/content.js:22-24 | navigation start removes the layout attribute where `ytd-browse` exists, and a settings callback that runs before navigation finishes, whatever URL, `ytd-browse` and attribute it sees, writes no attribute: the script itself never switches the list layout on during navigation |
| Feed.EarlyTaskLeavesItem | youtube-list-view/content.js:152-153 | a task started during navigation settles with its item still marked `descFetching` |

## Left out

- Network I/O (`fetch`, `response.text()`) and the one-second delay before a retry. Each call of `fetchDescription` is an `Attempt`: the clock at its cache check, and either a page body with its arrival time or a failure.
- Promise-level concurrency. A fetch happens in one step, when its task settles. The task's navigation check is decided when the pump starts it, because `task()` runs synchronously up to its first `await`. The first cache check of `fetchDescription` (lines 61-62) also runs synchronously at that point, before the `await` at line 67, but the model makes it at settle time, with the `checkedAt` clock of the first attempt; a cache entry written or purged between the start and the settling of a task is therefore seen by the model's check but not by the source's. Cache writes by other tasks during a retry delay are not interleaved.
- `debounce`, `setInterval` and the `MutationObserver` wiring (`setupObserver`). The purge is an event with a `now`, and an observed insertion is the `Render` event followed by a settings-read event.
- The `chrome.storage.local` reads. The stored `enabled` value is a parameter of the events that read it. The settings callback of `processItems` may run in any state; this over-approximates the guard at line 175, which only decides whether the read is issued. `init`'s read and the read in the `processItems` it calls happen in one step, and they see the same URL, the same `ytd-browse` and the attribute `init` has just fixed; every other settings callback reads all three afresh, so a `page-subtype` the host page writes is taken into account whenever the script next reads it.
- DOM traversal and node moves in `moveAvatar` and `cloneNode`. Only their effect on flags and element counts is kept.
- Removal and recycling of feed nodes by YouTube. Items are only ever appended, and a task refers to its item by index.
- The `try`/`catch` in `extractDescription`. Nothing in it can throw on a string. `console.warn` is output only.
- `youtube-list-view/popup.js`. It is a thin wrapper around `chrome.tabs` with no state of its own.

=== FILE: description_cache.dfy ===
/**
 * The in-memory description cache: a map from watch URL to the extracted
 * description and the time it was stored, read through a time-to-live
 * check, filled by `fetchDescription` and purged periodically. The clock
 * is a parameter (milliseconds, as `Date.now()` reports them).
 */
module DescriptionCache {
  import opened Wrappers
  import MetaDescription

  /** `CONFIG.cacheExpiration`: one hour in milliseconds */
  const CacheExpiration: int := 1000 * 60 * 60

  /** `CONFIG.retryAttempts`: one retry after the first failure */
  const RetryAttempts: nat := 1

  /** A cached description (None is a stored `null`) and when it was stored */
  datatype Entry = Entry(description: Option<string>, timestamp: int)

  type Cache = map<string, Entry>

  /** The entry is young enough to be served at `now` */
  predicate Fresh(e: Entry, now: int) {
    now - e.timestamp < CacheExpiration
  }

  /** The entry is old enough to be deleted by a purge at `now` */
  predicate Stale(e: Entry, now: int) {
    now - e.timestamp > CacheExpiration
  }

  /**
   * The cache check at the top of `fetchDescription`: an entry is served,
   * whatever description it holds (a stored null included), while it is
   * fresh; the outer Option says whether the cache answered at all.
   */
  function Lookup(c: Cache, url: string, now: int): (r: Option<Option<string>>)
    ensures r.Some? <==> url in c && now - c[url].timestamp < CacheExpiration
    ensures r.Some? ==> r.value == c[url].description
  {
    if url in c && Fresh(c[url], now) then Some(c[url].description) else None
  }

  /** `c'` holds the same entries as `c` for every URL but `url` */
  ghost predicate OthersUnchanged(c: Cache, c': Cache, url: string) {
    forall u :: u != url ==> (u in c' <==> u in c) && (u in c ==> c'[u] == c[u])
  }

  /** The interval purge: every entry older than the expiration is deleted */
  function Purge(c: Cache, now: int): (r: Cache)
    ensures forall u :: u in r <==> u in c && now - c[u].timestamp <= CacheExpiration
    ensures forall u :: u in r ==> r[u] == c[u]
  {
    map u | u in c && !Stale(c[u], now) :: c[u]
  }

  /**
   * A purge is invisible to every lookup made at its own time or later: it
   * deletes only entries that could no longer be served.
   */
  lemma PurgeKeepsServed(c: Cache, now: int, later: int, url: string)
    requires now <= later
    ensures Lookup(Purge(c, now), url, later) == Lookup(c, url, later)
  {
  }

  /** An entry aged exactly the expiration is kept by the purge but no longer served */
  lemma ExpirationBoundary(c: Cache, url: string, now: int)
    requires url in c && now - c[url].timestamp == CacheExpiration
    ensures url in Purge(c, now)
    ensures Lookup(c, url, now).None?
  {
  }

  /** Purging twice at the same time deletes nothing more */
  lemma PurgeIdempotent(c: Cache, now: int)
    ensures Purge(Purge(c, now), now) == Purge(c, now)
  {
  }

  /** Once an entry is no longer served, it is not served at any later time either */
  lemma ExpiryIsPermanent(c: Cache, url: string, now: int, later: int)
    requires now <= later && Lookup(c, url, now).None?
    ensures Lookup(c, url, later).None?
  {
  }

  /** What the network returned for one attempt: a page body received at a time, or a failure */
  datatype Response = Delivered(html: string, receivedAt: int) | Failed

  /** One call of `fetchDescription`: the clock at its cache check and what the network did */
  datatype Attempt = Attempt(checkedAt: int, response: Response)

  /** The description returned, the cache afterwards, and how many network requests were made */
  datatype Fetched = Fetched(description: Option<string>, cache: Cache, requests: nat)

  /**
   * `fetchDescription(url, retries)`: serve a fresh cache entry; otherwise
   * request the page, store what `extractDescription` makes of it and return
   * that; on a failure retry (a new call, with its own cache check) while
   * retries remain, and finally return null. `attempts[n]` describes the
   * n-th call; a failure never writes to the cache, and no other URL is touched.
   */
  function FetchDescription(c: Cache, url: string, attempts: seq<Attempt>, retries: nat): (r: Fetched)
    requires |attempts| == retries + 1
    ensures r.requests <= retries + 1
    ensures OthersUnchanged(c, r.cache, url)
    ensures r.cache != c ==>
              && url in r.cache
              && r.cache[url].description == r.description
              && (exists n :: 0 <= n < |attempts| && attempts[n].response.Delivered?
                    && r.cache[url] == Entry(MetaDescription.ExtractDescription(attempts[n].response.html),
                                             attempts[n].response.receivedAt))
    ensures r.requests == 0 <==> Lookup(c, url, attempts[0].checkedAt).Some?
    ensures r.requests == 0 ==> r.cache == c && Some(r.description) == Lookup(c, url, attempts[0].checkedAt)
    decreases retries
  {
    var a := attempts[0];
    match Lookup(c, url, a.checkedAt)
    case Some(d) => Fetched(d, c, 0)
    case None =>
      match a.response
      case Delivered(html, t) =>
        var d := MetaDescription.ExtractDescription(html);
        Fetched(d, c[url := Entry(d, t)], 1)
      case Failed =>
        if retries > 0 then
          var r := FetchDescription(c, url, attempts[1..], retries - 1);
          Fetched(r.description, r.cache, r.requests + 1)
        else Fetched(None, c, 1)
  }

  /** No cache hit and a failure on every attempt: null, the cache unchanged, one request per attempt */
  lemma {:induction false} FetchAllFailed(c: Cache, url: string, attempts: seq<Attempt>, retries: nat)
    requires |attempts| == retries + 1
    requires forall n :: 0 <= n < |attempts| ==> attempts[n].response.Failed?
    requires forall n :: 0 <= n < |attempts| ==> Lookup(c, url, attempts[n].checkedAt).None?
    ensures FetchDescription(c, url, attempts, retries) == Fetched(None, c, retries + 1)
    decreases retries
  {
    if retries > 0 {
      FetchAllFailed(c, url, attempts[1..], retries - 1);
    }
  }

  /**
   * When the first `k` attempts miss the cache and fail and attempt `k`
   * misses and receives a page, that page's description is stored under the
   * URL with its arrival time, and returned.
   */
  lemma {:induction false} FetchStoresDelivered(c: Cache, url: string, attempts: seq<Attempt>, retries: nat, k: nat)
    requires |attempts| == retries + 1 && k <= retries
    requires forall n :: 0 <= n < k ==> attempts[n].response.Failed?
    requires forall n :: 0 <= n <= k ==> Lookup(c, url, attempts[n].checkedAt).None?
    requires attempts[k].response.Delivered?
    ensures var d := MetaDescription.ExtractDescription(attempts[k].response.html);
            FetchDescription(c, url, attempts, retries)
              == Fetched(d, c[url := Entry(d, attempts[k].response.receivedAt)], k + 1)
    decreases k
  {
    if k > 0 {
      FetchStoresDelivered(c, url, attempts[1..], retries - 1, k - 1);
    }
  }

  /**
   * Cache coherence: after a fetch that wrote to the cache, a lookup while the
   * new entry is fresh returns the fetched description without a new request.
   */
  lemma FetchThenServe(c: Cache, url: string, attempts: seq<Attempt>, retries: nat, now: int)
    requires |attempts| == retries + 1
    ensures var r := FetchDescription(c, url, attempts, retries);
            r.cache != c && now - r.cache[url].timestamp < CacheExpiration ==>
              Lookup(r.cache, url, now) == Some(r.description)
  {
  }
}

=== FILE: feed.dfy ===
/**
 * The content script as one sequential state machine. Every asynchronous
 * continuation of the script (a navigation event, the settings read that
 * precedes `processItems`, a description task settling, the purge timer)
 * is an event applied to the whole state, and the system invariant `Inv`
 * holds after every event: the pool never runs more than
 * `maxConcurrentFetches` tasks, every pending task belongs to an item that
 * is marked as being fetched, and no item is ever queued twice.
 */
module Feed {
  import opened Wrappers
  import opened FeedItem
  import opened PageAttribute
  import FetchQueue
  import DescriptionCache

  /** A queued `addDescriptionToItem(item, url)`: the item's index in the feed and its watch URL */
  datatype Task = Task(item: nat, url: string)

  /** A started task; `early` when the page was navigating as it started, so that it returned at once */
  datatype Run = Run(task: Task, early: bool)

  /** `task()`: the task's body runs up to its first `await`, where it checks `estaNavegando` */
  function Starter(navigating: bool): Task -> Run {
    t => Run(t, navigating)
  }

  const Cap: nat := FetchQueue.MaxConcurrentFetches

  /**
   * The script's module-level state and the parts of the page it reads:
   * the URL, `estaNavegando`, whether `ytd-browse` exists and its
   * `page-subtype`, the feed items, the description cache, the fetch pool,
   * and (a record kept by the model) every item index ever queued.
   */
  datatype State = State(
    href: string,
    navigating: bool,
    browse: bool,
    pageSubtype: Option<string>,
    items: seq<Item>,
    cache: DescriptionCache.Cache,
    pool: FetchQueue.Pool<Task, Run>,
    enqueued: multiset<nat>)

  function TaskIds(q: seq<Task>): (r: seq<nat>)
    ensures |r| == |q| && forall n :: 0 <= n < |q| ==> r[n] == q[n].item
  {
    seq(|q|, n requires 0 <= n < |q| => q[n].item)
  }

  function RunIds(q: seq<Run>): (r: seq<nat>)
    ensures |r| == |q| && forall n :: 0 <= n < |q| ==> r[n] == q[n].task.item
  {
    seq(|q|, n requires 0 <= n < |q| => q[n].task.item)
  }

  /** The items of all queued and running tasks, with multiplicity */
  function Pending(p: FetchQueue.Pool<Task, Run>): multiset<nat> {
    multiset(TaskIds(p.queue)) + multiset(RunIds(p.running))
  }

  /** Every pending task's item is in the feed, marked as being fetched and not yet described, and has one task */
  ghost predicate PendingOk(p: FetchQueue.Pool<Task, Run>, items: seq<Item>) {
    && (forall i :: i in Pending(p) ==> i < |items| && items[i].descFetching && !items[i].descAdded)
    && (forall i :: Pending(p)[i] <= 1)
  }

  /** Every item ever queued is in the feed, still marked as being fetched or described, and was queued once */
  ghost predicate EnqueuedOk(enqueued: multiset<nat>, items: seq<Item>) {
    && (forall i :: i in enqueued ==> i < |items| && (items[i].descFetching || items[i].descAdded))
    && (forall i :: enqueued[i] <= 1)
  }

  /** The system invariant */
  ghost predicate Inv(s: State) {
    && FetchQueue.Valid(s.pool, Cap)
    && FetchQueue.Settled(s.pool, Cap)
    && PendingOk(s.pool, s.items)
    && EnqueuedOk(s.enqueued, s.items)
  }

  /** The state when the script loads: nothing cached, queued or running */
  function Initial(href: string, browse: bool, pageSubtype: Option<string>, items: seq<Item>): (s: State)
    ensures Inv(s)
    ensures !s.navigating && s.cache == map[] && s.pool == FetchQueue.Pool([], 0, []) && s.enqueued == multiset{}
    ensures s.href == href && s.browse == browse && s.pageSubtype == pageSubtype && s.items == items
  {
    State(href, false, browse, pageSubtype, items, map[], FetchQueue.Pool([], 0, []), multiset{})
  }

  // ---------------------------------------------------------------------
  // Bookkeeping of pending items through the pool's operations

  lemma TaskIdsConcat(a: seq<Task>, b: seq<Task>)
    ensures TaskIds(a + b) == TaskIds(a) + TaskIds(b)
  {
    assert forall n :: 0 <= n < |a + b| ==> TaskIds(a + b)[n] == (TaskIds(a) + TaskIds(b))[n];
  }

  lemma RunIdsConcat(a: seq<Run>, b: seq<Run>)
    ensures RunIds(a + b) == RunIds(a) + RunIds(b)
  {
    assert forall n :: 0 <= n < |a + b| ==> RunIds(a + b)[n] == (RunIds(a) + RunIds(b))[n];
  }

  lemma RunIdsStarted(q: seq<Task>, navigating: bool)
    ensures RunIds(FetchQueue.StartAll(Starter(navigating), q)) == TaskIds(q)
  {
    var started := FetchQueue.StartAll(Starter(navigating), q);
    forall n | 0 <= n < |q| ensures RunIds(started)[n] == TaskIds(q)[n] {
      assert started[n] == Run(q[n], navigating);
    }
  }

  /** Pumping moves tasks from the queue to the running set and loses or duplicates none */
  lemma PumpKeepsPending(p: FetchQueue.Pool<Task, Run>, navigating: bool)
    ensures Pending(FetchQueue.Pump(p, Cap, Starter(navigating))) == Pending(p)
  {
    var r := FetchQueue.Pump(p, Cap, Starter(navigating));
    var n := FetchQueue.Room(p, Cap);
    assert p.queue == p.queue[..n] + p.queue[n..];
    TaskIdsConcat(p.queue[..n], p.queue[n..]);
    RunIdsConcat(p.running, FetchQueue.StartAll(Starter(navigating), p.queue[..n]));
    RunIdsStarted(p.queue[..n], navigating);
  }

  /** A settled task leaves the pending items; nothing else does */
  lemma CompleteDropsOne(p: FetchQueue.Pool<Task, Run>, k: nat, navigating: bool)
    requires FetchQueue.Valid(p, Cap) && k < |p.running|
    ensures Pending(FetchQueue.Complete(p, k, Cap, Starter(navigating)))
            == Pending(p) - multiset{p.running[k].task.item}
    ensures p.running[k].task.item in Pending(p)
  {
    var w := FetchQueue.Without(p.running, k);
    var x := p.running[k].task.item;
    RunIdsWithout(p.running, k);
    PumpKeepsPending(FetchQueue.Pool(p.queue, p.active - 1, w), navigating);
    var a := multiset(TaskIds(p.queue));
    var b := multiset(RunIds(w));
    assert Pending(p) == a + b + multiset{x};
    assert Pending(FetchQueue.Complete(p, k, Cap, Starter(navigating))) == a + b;
  }

  /** Taking the task at `k` out of the running ones takes exactly its item out of their items */
  lemma RunIdsWithout(running: seq<Run>, k: nat)
    requires k < |running|
    ensures multiset(RunIds(running)) == multiset(RunIds(FetchQueue.Without(running, k))) + multiset{running[k].task.item}
  {
    var r := FetchQueue.Without(running, k);
    var ids, rest := RunIds(running), RunIds(r);
    var x := running[k].task.item;
    var u := rest[..k] + [x] + rest[k..];
    forall n | 0 <= n < |ids| ensures ids[n] == u[n] {
      if n < k {
        assert running[n] == r[n] && u[n] == rest[n];
      } else if k < n {
        assert running[n] == r[n - 1] && u[n] == rest[n - 1];
      }
    }
    assert ids == u;
    MultisetInsert(rest, k, x);
  }

  /** Inserting a value anywhere in a sequence adds it once to the sequence's multiset */
  lemma MultisetInsert(s: seq<nat>, k: nat, x: nat)
    requires k <= |s|
    ensures multiset(s[..k] + [x] + s[k..]) == multiset(s) + multiset{x}
  {
    assert s == s[..k] + s[k..];
  }

  lemma EnqueueAddsTasks(p: FetchQueue.Pool<Task, Run>, tasks: seq<Task>)
    ensures Pending(FetchQueue.Enqueue(p, tasks)) == Pending(p) + multiset(TaskIds(tasks))
  {
    TaskIdsConcat(p.queue, tasks);
  }

  // ---------------------------------------------------------------------
  // The forEach of processItems

  /** The items after the loop, and the tasks it queued, in feed order */
  datatype Batch = Batch(items: seq<Item>, tasks: seq<Task>)

  /**
   * The tasks the `forEach` of `processItems` queues from index `k` on, in
   * feed order: one for each item whose visit queues one, carrying the
   * item's watch URL.
   */
  function TasksFrom(items: seq<Item>, k: nat): (t: seq<Task>)
    requires k <= |items|
    ensures forall n :: 0 <= n < |t| ==>
              k <= t[n].item < |items| && QueuedUrl(items[t[n].item]) == Some(t[n].url)
    decreases |items| - k
  {
    if k == |items| then []
    else
      var url := QueuedUrl(items[k]);
      var here := if url.Some? then [Task(k, url.value)] else [];
      here + TasksFrom(items, k + 1)
  }

  /** Each task is for a later item than the tasks before it */
  predicate InFeedOrder(t: seq<Task>)
  {
    forall m, n :: 0 <= m < n < |t| ==> t[m].item < t[n].item
  }

  /** The tasks are queued in feed order, each item at most once */
  lemma {:induction false} TasksInFeedOrder(items: seq<Item>, k: nat)
    requires k <= |items|
    ensures InFeedOrder(TasksFrom(items, k))
    decreases |items| - k
  {
    if k < |items| {
      TasksInFeedOrder(items, k + 1);
      var url := QueuedUrl(items[k]);
      var rest := TasksFrom(items, k + 1);
      assert InFeedOrder(rest);
      if url.Some? {
        var t := [Task(k, url.value)] + rest;
        assert t == TasksFrom(items, k);
        forall m, n | 0 <= m < n < |t| ensures t[m].item < t[n].item {
          assert t[n] == rest[n - 1];
          if m > 0 {
            assert t[m] == rest[m - 1];
          }
        }
      } else {
        assert rest == TasksFrom(items, k);
      }
    }
  }

  /**
   * The `forEach` of `processItems`: every item is visited once, and a
   * visit touches only its own item, so the items after the loop are the
   * items visited one by one.
   */
  function VisitAll(items: seq<Item>, navigating: bool): (b: Batch)
    ensures |b.items| == |items|
    ensures forall j :: 0 <= j < |items| ==> b.items[j] == VisitItem(items[j], navigating).item
  {
    Batch(seq(|items|, j requires 0 <= j < |items| => VisitItem(items[j], navigating).item),
          TasksFrom(items, 0))
  }

  /** The item indices of the tasks from `k` on: `k` when its visit queues a task, then the rest */
  lemma TasksFromStep(items: seq<Item>, k: nat)
    requires k < |items|
    ensures multiset(TaskIds(TasksFrom(items, k)))
            == (if QueuedUrl(items[k]).Some? then multiset{k} else multiset{})
               + multiset(TaskIds(TasksFrom(items, k + 1)))
  {
    var url := QueuedUrl(items[k]);
    var here := if url.Some? then [Task(k, url.value)] else [];
    TaskIdsConcat(here, TasksFrom(items, k + 1));
  }

  /** Exactly the items whose visit queues a task get a task, one each */
  lemma {:induction false} TasksFromCount(items: seq<Item>, k: nat, i: nat)
    requires k <= |items|
    ensures multiset(TaskIds(TasksFrom(items, k)))[i]
            == if k <= i < |items| && QueuedUrl(items[i]).Some? then 1 else 0
    decreases |items| - k
  {
    if k < |items| {
      var here := if i == k && QueuedUrl(items[k]).Some? then 1 else 0;
      var later := if k + 1 <= i < |items| && QueuedUrl(items[i]).Some? then 1 else 0;
      calc {
        multiset(TaskIds(TasksFrom(items, k)))[i];
      == { TasksFromStepAt(items, k, i); }
        here + multiset(TaskIds(TasksFrom(items, k + 1)))[i];
      == { TasksFromCount(items, k + 1, i); }
        here + later;
      }
    } else {
      calc {
        multiset(TaskIds(TasksFrom(items, k)))[i];
      == { assert TasksFrom(items, k) == []; }
        multiset(TaskIds([]))[i];
      == { assert TaskIds([]) == []; }
        0;
      }
    }
  }

  /** How many tasks from `k` on are for item `i`: one more than from `k + 1` on exactly when `i` is `k` and queues one */
  lemma TasksFromStepAt(items: seq<Item>, k: nat, i: nat)
    requires k < |items|
    ensures multiset(TaskIds(TasksFrom(items, k)))[i]
            == (if i == k && QueuedUrl(items[k]).Some? then 1 else 0)
               + multiset(TaskIds(TasksFrom(items, k + 1)))[i]
  {
    TasksFromStep(items, k);
  }

  /**
   * The tasks `processItems` queues: in feed order, each for an item whose
   * visit queued that URL, and exactly one for every such item.
   */
  lemma VisitAllTasks(items: seq<Item>, navigating: bool)
    ensures var t := VisitAll(items, navigating).tasks;
            && InFeedOrder(t)
            && (forall n :: 0 <= n < |t| ==>
                  t[n].item < |items| && QueuedUrl(items[t[n].item]) == Some(t[n].url))
            && (forall i: nat :: multiset(TaskIds(t))[i] == if i < |items| && QueuedUrl(items[i]).Some? then 1 else 0)
  {
    TasksInFeedOrder(items, 0);
    forall i: nat ensures multiset(TaskIds(TasksFrom(items, 0)))[i]
                     == if i < |items| && QueuedUrl(items[i]).Some? then 1 else 0 {
      TasksFromCount(items, 0, i);
    }
  }

  /** An item keeps its `descAdded` flag and never loses its `descFetching` flag */
  predicate Grown(a: Item, b: Item) {
    b.descAdded == a.descAdded && (a.descFetching ==> b.descFetching)
  }

  /**
   * What the loop of `processItems` does to the description flags: no flag is
   * lost, and each queued item was neither described nor being fetched
   * before, is marked as being fetched after, and is queued once.
   */
  lemma VisitAllFacts(items: seq<Item>, navigating: bool)
    ensures var b := VisitAll(items, navigating);
            var q := multiset(TaskIds(b.tasks));
            && |b.items| == |items|
            && (forall i :: 0 <= i < |items| ==> Grown(items[i], b.items[i]))
            && (forall i :: i in q ==> i < |items| && !items[i].descFetching && !items[i].descAdded
                                       && b.items[i].descFetching)
            && (forall i :: q[i] <= 1)
  {
    forall i: nat ensures multiset(TaskIds(VisitAll(items, navigating).tasks))[i]
                     == if i < |items| && QueuedUrl(items[i]).Some? then 1 else 0 {
      TasksFromCount(items, 0, i);
    }
  }

  // ---------------------------------------------------------------------
  // The events

  /**
   * `yt-navigate-start`: block the script and drop the list layout at once.
   * `browse` is whether `ytd-browse` exists when the event fires.
   */
  function StartNavigation(s: State, browse: bool): (r: State)
    ensures r.navigating && r.browse == browse && r.href == s.href
    ensures browse ==> r.pageSubtype.None?
    ensures !browse ==> r.pageSubtype == s.pageSubtype
    ensures r.items == s.items && r.pool == s.pool && r.cache == s.cache && r.enqueued == s.enqueued
  {
    s.(navigating := true, browse := browse, pageSubtype := if browse then None else s.pageSubtype)
  }

  /**
   * The settings callback of `processItems`, whenever it runs. It reads the
   * page afresh: `href` is the URL, `browse` whether `ytd-browse` exists and
   * `current` the `page-subtype` it carries at that moment (the host page
   * may have set it since). It fixes the page attribute; then, when enabled on the
   * subscriptions feed, it visits every item, queues their tasks in feed
   * order and pumps.
   */
  function ItemsLoaded(s: State, href: string, browse: bool, current: Option<string>, stored: Option<bool>): (r: State)
    requires Inv(s)
    ensures Inv(r)
    ensures r.cache == s.cache && r.navigating == s.navigating && |r.items| == |s.items|
    ensures r.href == href && r.browse == browse
    ensures s.navigating ==> r.pageSubtype == current
    ensures !s.navigating ==>
              r.pageSubtype == EnsurePageAttribute(false, browse, IsEnabled(stored), IsSubscriptionsPage(href), current)
    ensures !IsEnabled(stored) || !IsSubscriptionsPage(href) ==>
              r.items == s.items && r.pool == s.pool && r.enqueued == s.enqueued
    ensures IsEnabled(stored) && IsSubscriptionsPage(href) ==>
              forall i :: 0 <= i < |s.items| ==>
                && SameHeaderState(r.items[i], AddChannelHeader(s.items[i], s.navigating))
                && r.items[i].descAdded == s.items[i].descAdded
                && (r.items[i].descFetching <==> s.items[i].descFetching || QueuedUrl(s.items[i]).Some?)
                && r.items[i].descriptions == s.items[i].descriptions
                && r.items[i].watchLink == s.items[i].watchLink
    ensures IsEnabled(stored) && IsSubscriptionsPage(href) ==>
              forall i :: 0 <= i < |s.items| && QueuedUrl(s.items[i]).Some? ==>
                i in r.enqueued && i in Pending(r.pool)
    ensures IsEnabled(stored) && IsSubscriptionsPage(href) ==>
              forall i: nat :: Pending(r.pool)[i]
                               == Pending(s.pool)[i] + (if i < |s.items| && QueuedUrl(s.items[i]).Some? then 1 else 0)
    ensures IsEnabled(stored) && IsSubscriptionsPage(href) ==>
              r.pool == FetchQueue.Pump(FetchQueue.Enqueue(s.pool, VisitAll(s.items, s.navigating).tasks),
                                        Cap, Starter(s.navigating))
  {
    var enabled := IsEnabled(stored);
    var onSubs := IsSubscriptionsPage(href);
    var s1 := s.(href := href, browse := browse,
                 pageSubtype := EnsurePageAttribute(s.navigating, browse, enabled, onSubs, current));
    if !enabled || !onSubs then s1
    else
      var b := VisitAll(s.items, s.navigating);
      var queued := FetchQueue.Enqueue(s.pool, b.tasks);
      var r := s1.(items := b.items,
                   pool := FetchQueue.Pump(queued, Cap, Starter(s.navigating)),
                   enqueued := s.enqueued + multiset(TaskIds(b.tasks)));
      ItemsLoadedKeepsInv(s, b, r);
      VisitAllItems(s.items, s.navigating);
      r
  }

  /**
   * Each item after the loop has the header `addChannelHeader` gives it,
   * keeps `descAdded`, its descriptions and its watch link, and is being
   * fetched exactly when it was before or its visit queued a task.
   */
  lemma VisitAllItems(items: seq<Item>, navigating: bool)
    ensures var b := VisitAll(items, navigating);
            forall i :: 0 <= i < |items| ==>
              && SameHeaderState(b.items[i], AddChannelHeader(items[i], navigating))
              && b.items[i].descAdded == items[i].descAdded
              && (b.items[i].descFetching <==> items[i].descFetching || QueuedUrl(items[i]).Some?)
              && b.items[i].descriptions == items[i].descriptions
              && b.items[i].watchLink == items[i].watchLink
  {
    var b := VisitAll(items, navigating);
    forall i | 0 <= i < |items|
      ensures SameHeaderState(b.items[i], AddChannelHeader(items[i], navigating))
      ensures b.items[i].descAdded == items[i].descAdded
      ensures b.items[i].descFetching <==> items[i].descFetching || QueuedUrl(items[i]).Some?
      ensures b.items[i].descriptions == items[i].descriptions
      ensures b.items[i].watchLink == items[i].watchLink
    {
      var v := VisitItem(items[i], navigating);
      assert b.items[i] == v.item;
    }
  }

  lemma ItemsLoadedKeepsInv(s: State, b: Batch, r: State)
    requires Inv(s)
    requires b == VisitAll(s.items, s.navigating)
    requires r == s.(href := r.href, browse := r.browse, pageSubtype := r.pageSubtype, items := b.items,
                     pool := FetchQueue.Pump(FetchQueue.Enqueue(s.pool, b.tasks), Cap, Starter(s.navigating)),
                     enqueued := s.enqueued + multiset(TaskIds(b.tasks)))
    ensures Inv(r)
    ensures forall i :: 0 <= i < |s.items| && QueuedUrl(s.items[i]).Some? ==>
              i in r.enqueued && i in Pending(r.pool)
    ensures forall i: nat :: Pending(r.pool)[i]
                             == Pending(s.pool)[i] + (if i < |s.items| && QueuedUrl(s.items[i]).Some? then 1 else 0)
  {
    var q := multiset(TaskIds(b.tasks));
    VisitAllFacts(s.items, s.navigating);
    EnqueueAddsTasks(s.pool, b.tasks);
    PumpKeepsPending(FetchQueue.Enqueue(s.pool, b.tasks), s.navigating);
    assert Pending(r.pool) == Pending(s.pool) + q;
    GrowKeepsInv(s.pool, r.pool, s.enqueued, r.enqueued, s.items, b.items, q);
    forall i: nat ensures q[i] == if i < |s.items| && QueuedUrl(s.items[i]).Some? then 1 else 0 {
      TasksFromCount(s.items, 0, i);
    }
  }

  /**
   * Adding a set of newly queued items to the pending tasks and to the
   * record of queued items keeps both invariants, when the new items were
   * neither being fetched nor described and are now being fetched.
   */
  lemma GrowKeepsInv(p: FetchQueue.Pool<Task, Run>, p': FetchQueue.Pool<Task, Run>,
                     e: multiset<nat>, e': multiset<nat>, items: seq<Item>, items': seq<Item>, q: multiset<nat>)
    requires PendingOk(p, items) && EnqueuedOk(e, items)
    requires Pending(p') == Pending(p) + q && e' == e + q
    requires |items'| == |items| && forall i :: 0 <= i < |items| ==> Grown(items[i], items'[i])
    requires forall i :: i in q ==> i < |items| && !items[i].descFetching && !items[i].descAdded && items'[i].descFetching
    requires forall i :: q[i] <= 1
    ensures PendingOk(p', items') && EnqueuedOk(e', items')
  {
    forall i | i in q ensures i !in Pending(p) && i !in e { }
    forall i ensures Pending(p')[i] <= 1 && e'[i] <= 1 {
      if i in q { assert i !in Pending(p) && i !in e; }
    }
  }

  /**
   * `yt-navigate-finish`, which runs `init`: unblock, fix the attribute, and
   * process the feed when enabled on it. `href`, `browse` and `current` are
   * the URL, whether `ytd-browse` exists and its `page-subtype`, as `init`
   * reads them.
   */
  function FinishNavigation(s: State, href: string, browse: bool, current: Option<string>,
                            stored: Option<bool>): (r: State)
    requires Inv(s)
    ensures Inv(r)
    ensures !r.navigating && r.href == href && r.browse == browse
    ensures browse ==> (r.pageSubtype == Some(SubscriptionsSubtype) <==> IsEnabled(stored) && IsSubscriptionsPage(href))
    ensures r.pageSubtype == EnsurePageAttribute(false, browse, IsEnabled(stored), IsSubscriptionsPage(href), current)
    ensures r.cache == s.cache && |r.items| == |s.items|
    ensures !(IsEnabled(stored) && IsSubscriptionsPage(href)) ==>
              r.items == s.items && r.pool == s.pool && r.enqueued == s.enqueued
    ensures IsEnabled(stored) && IsSubscriptionsPage(href) ==>
              forall i :: 0 <= i < |s.items| ==>
                && SameHeaderState(r.items[i], AddChannelHeader(s.items[i], false))
                && r.items[i].descAdded == s.items[i].descAdded
                && (r.items[i].descFetching <==> s.items[i].descFetching || QueuedUrl(s.items[i]).Some?)
                && r.items[i].descriptions == s.items[i].descriptions
                && r.items[i].watchLink == s.items[i].watchLink
    ensures IsEnabled(stored) && IsSubscriptionsPage(href) ==>
              forall i :: 0 <= i < |s.items| && QueuedUrl(s.items[i]).Some? ==>
                i in r.enqueued && i in Pending(r.pool)
    ensures IsEnabled(stored) && IsSubscriptionsPage(href) ==>
              forall i: nat :: Pending(r.pool)[i]
                               == Pending(s.pool)[i] + (if i < |s.items| && QueuedUrl(s.items[i]).Some? then 1 else 0)
  {
    var enabled := IsEnabled(stored);
    var onSubs := IsSubscriptionsPage(href);
    var s1 := s.(navigating := false, href := href, browse := browse);
    var s2 := s1.(pageSubtype := EnsurePageAttribute(false, browse, enabled, onSubs, current));
    if enabled && onSubs then
      EnsurePageAttributeIdempotent(false, browse, enabled, onSubs, current);
      ItemsLoaded(s2, href, browse, s2.pageSubtype, stored)
    else s2
  }

  /** The host page renders more feed items */
  function AddItems(s: State, added: seq<Item>): (r: State)
    requires Inv(s)
    ensures Inv(r)
    ensures |r.items| == |s.items| + |added| && r.items[..|s.items|] == s.items
    ensures r.items[|s.items|..] == added
    ensures r.navigating == s.navigating && r.href == s.href && r.browse == s.browse
            && r.pageSubtype == s.pageSubtype && r.cache == s.cache && r.pool == s.pool && r.enqueued == s.enqueued
  {
    s.(items := s.items + added)
  }

  /**
   * The running task at index `k` settles. A task that started while
   * navigating returned at once and changes no item. Any other task fetched
   * its URL through the cache (`attempts` are its calls of
   * `fetchDescription`) and then updated its item, or threw while doing so.
   * Then `activeFetches--` and the pool is pumped again.
   */
  function SettleTask(s: State, k: nat, attempts: seq<DescriptionCache.Attempt>, threw: bool): (r: State)
    requires Inv(s) && k < |s.pool.running| && |attempts| == DescriptionCache.RetryAttempts + 1
    ensures Inv(r)
    ensures r.pool == FetchQueue.Complete(s.pool, k, Cap, Starter(s.navigating))
    ensures r.navigating == s.navigating && r.pageSubtype == s.pageSubtype && r.href == s.href
            && r.browse == s.browse && r.enqueued == s.enqueued
    ensures var run := s.pool.running[k];
            && |r.items| == |s.items| && run.task.item < |s.items|
            && (forall j :: 0 <= j < |s.items| && j != run.task.item ==> r.items[j] == s.items[j])
            && DescriptionCache.OthersUnchanged(s.cache, r.cache, run.task.url)
            && (run.early ==> r.items == s.items && r.cache == s.cache)
            && (!run.early ==> r.items[run.task.item].descAdded && !r.items[run.task.item].descFetching)
    ensures var run := s.pool.running[k];
            var f := DescriptionCache.FetchDescription(s.cache, run.task.url, attempts, DescriptionCache.RetryAttempts);
            !run.early ==>
              && r.cache == f.cache
              && r.items[run.task.item]
                 == FinishTask(s.items[run.task.item], if threw then Threw else Described(f.description))
  {
    var run := s.pool.running[k];
    var i := run.task.item;
    CompleteDropsOne(s.pool, k, s.navigating);
    var pool := FetchQueue.Complete(s.pool, k, Cap, Starter(s.navigating));
    var f := DescriptionCache.FetchDescription(s.cache, run.task.url, attempts, DescriptionCache.RetryAttempts);
    var items := if run.early then s.items
                 else s.items[i := FinishTask(s.items[i], if threw then Threw else Described(f.description))];
    ShrinkKeepsInv(s.pool, pool, s.enqueued, s.items, items, i);
    s.(items := items, cache := if run.early then s.cache else f.cache, pool := pool)
  }

  /**
   * Dropping item `i`'s task from the pending ones keeps both invariants
   * when only item `i` changes, and it changes either not at all or to
   * described and no longer being fetched.
   */
  lemma ShrinkKeepsInv(p: FetchQueue.Pool<Task, Run>, p': FetchQueue.Pool<Task, Run>,
                       e: multiset<nat>, items: seq<Item>, items': seq<Item>, i: nat)
    requires PendingOk(p, items) && EnqueuedOk(e, items)
    requires i in Pending(p) && Pending(p') == Pending(p) - multiset{i}
    requires |items'| == |items| && forall j :: 0 <= j < |items| && j != i ==> items'[j] == items[j]
    requires items'[i] == items[i] || (items'[i].descAdded && !items'[i].descFetching)
    ensures PendingOk(p', items') && EnqueuedOk(e, items')
  {
    assert Pending(p)[i] == 1;
    assert i !in Pending(p');
  }

  /** The ten-minute cache purge at time `now` */
  function PurgeTick(s: State, now: int): (r: State)
    requires Inv(s)
    ensures Inv(r)
    ensures r.cache == DescriptionCache.Purge(s.cache, now) && r.items == s.items && r.pool == s.pool
    ensures r.navigating == s.navigating && r.href == s.href && r.browse == s.browse
            && r.pageSubtype == s.pageSubtype && r.enqueued == s.enqueued
  {
    s.(cache := DescriptionCache.Purge(s.cache, now))
  }

  datatype Event =
    | NavigateStart(browse: bool)
    | NavigateFinish(href: string, browse: bool, current: Option<string>, stored: Option<bool>)
    | SettingsRead(href: string, browse: bool, current: Option<string>, stored: Option<bool>)
    | Render(added: seq<Item>)
    | Settle(k: nat, attempts: seq<DescriptionCache.Attempt>, threw: bool)
    | Tick(now: int)

  /** Events that can happen in `s`: only a running task can settle */
  predicate Possible(s: State, e: Event) {
    e.Settle? ==> e.k < |s.pool.running| && |e.attempts| == DescriptionCache.RetryAttempts + 1
  }

  function Step(s: State, e: Event): (r: State)
    requires Inv(s) && Possible(s, e)
    ensures Inv(r)
  {
    match e
    case NavigateStart(browse) => StartNavigation(s, browse)
    case NavigateFinish(href, browse, current, stored) => FinishNavigation(s, href, browse, current, stored)
    case SettingsRead(href, browse, current, stored) => ItemsLoaded(s, href, browse, current, stored)
    case Render(added) => AddItems(s, added)
    case Settle(k, attempts, threw) => SettleTask(s, k, attempts, threw)
    case Tick(now) => PurgeTick(s, now)
  }

  /**
   * Any run of events from a state satisfying the invariant (impossible
   * events are skipped) ends in a state satisfying it: in particular at most
   * `maxConcurrentFetches` tasks are running, the pool is settled, and each
   * item has been queued at most once.
   */
  function Execute(s: State, events: seq<Event>): (r: State)
    requires Inv(s)
    ensures Inv(r)
    ensures r.pool.active <= Cap
    ensures r.pool.queue == [] || r.pool.active == Cap
    ensures forall i :: r.enqueued[i] <= 1
    decreases |events|
  {
    if events == [] then s
    else if Possible(s, events[0]) then Execute(Step(s, events[0]), events[1..])
    else Execute(s, events[1..])
  }

  /**
   * The script never switches the list layout on while the page is
   * navigating: navigation start removes the attribute where `ytd-browse`
   * exists, and a settings callback that runs meanwhile, whatever URL,
   * `ytd-browse` and attribute it then sees, writes nothing — the attribute
   * keeps the value it read.
   */
  lemma NavigationKeepsLayoutOff(s: State, browse: bool, href': string, browse': bool,
                                 current': Option<string>, stored: Option<bool>)
    requires Inv(s)
    ensures var n := StartNavigation(s, browse);
            var r := ItemsLoaded(n, href', browse', current', stored);
            (browse ==> n.pageSubtype.None?) && r.pageSubtype == current' && r.navigating
  {
  }

  /** Tasks started while navigating return early: their items stay marked as being fetched */
  lemma EarlyTaskLeavesItem(s: State, k: nat, attempts: seq<DescriptionCache.Attempt>, threw: bool)
    requires Inv(s) && k < |s.pool.running| && |attempts| == DescriptionCache.RetryAttempts + 1
    requires s.pool.running[k].early
    ensures var i := s.pool.running[k].task.item;
            i < |s.items| && SettleTask(s, k, attempts, threw).items[i].descFetching
  {
    CompleteDropsOne(s.pool, k, s.navigating);
  }
}

=== FILE: feed_item.dfy ===
/**
 * One `ytd-rich-item-renderer` of the subscriptions feed, seen only through
 * the markers the script reads and writes: its `data-*` flags, which of the
 * host page's elements it contains, and how many of the script's own
 * elements it holds. `addChannelHeader`, the per-item step of
 * `processItems` and the task built by `addDescriptionToItem` act on it.
 */
module FeedItem {
  import opened Wrappers
  import Text

  datatype Item = Item(
    headerProcessed: bool,      // data-header-processed is 'true'
    descFetching: bool,         // data-desc-fetching is 'true'
    descAdded: bool,            // data-desc-added is 'true'
    watchLink: Option<string>,  // href of the first link whose href contains /watch
    hasLockup: bool,            // contains a .yt-lockup-view-model
    hasMetadataModel: bool,     // contains a yt-content-metadata-view-model
    hasAvatar: bool,            // contains a .yt-lockup-metadata-view-model__avatar
    hasChannelLink: bool,       // the metadata model holds a link
    hasChannelRow: bool,        // the metadata model holds a __metadata-row
    hasMetadataRow: bool,       // contains a .yt-lockup-metadata-view-model__metadata
    customHeaders: nat,         // .custom-video-header elements
    avatarInHeader: bool,       // the avatar container sits inside the custom header
    avatarLinks: nat,           // .custom-avatar-link wrappers in the avatar container
    clonedNames: nat,           // .cloned-channel-name elements in the custom header
    descriptions: seq<string>   // texts of the .custom-description elements
  )

  /** None of the script's own elements is duplicated */
  predicate AtMostOnce(it: Item) {
    it.customHeaders <= 1 && it.avatarLinks <= 1 && it.clonedNames <= 1 && |it.descriptions| <= 1
  }

  /** The description flags, the link and the description texts agree */
  predicate SameDescriptionState(a: Item, b: Item) {
    && a.descFetching == b.descFetching && a.descAdded == b.descAdded
    && a.watchLink == b.watchLink && a.descriptions == b.descriptions
  }

  /** The header flag and the header's contents agree */
  predicate SameHeaderState(a: Item, b: Item) {
    && a.headerProcessed == b.headerProcessed && a.customHeaders == b.customHeaders
    && a.avatarInHeader == b.avatarInHeader && a.avatarLinks == b.avatarLinks
    && a.clonedNames == b.clonedNames
  }

  /** The lockup and the metadata model are both present, so the header can be built */
  predicate HeaderReady(it: Item) {
    it.hasLockup && it.hasMetadataModel
  }

  /**
   * `addChannelHeader(item)`. A no-op while navigating, once the item is
   * marked processed, or without a lockup and metadata model; otherwise it
   * finds or creates the one custom header, moves the avatar container into
   * it (wrapping its contents in a channel link the first time), clones the
   * channel row into it unless a clone is already there, and marks the item
   * processed.
   */
  function AddChannelHeader(it: Item, navigating: bool): (r: Item)
    ensures navigating || it.headerProcessed || !HeaderReady(it) ==> r == it
    ensures !navigating && !it.headerProcessed && HeaderReady(it) ==>
              && r.headerProcessed
              && (it.hasAvatar ==> r.avatarInHeader)
              && (it.hasChannelRow ==> r.clonedNames >= 1)
    ensures r.headerProcessed ==> HeaderReady(it) || it.headerProcessed
    ensures SameDescriptionState(it, r)
  {
    if navigating || it.headerProcessed || !HeaderReady(it) then it
    else
      var headers := if it.customHeaders == 0 then 1 else it.customHeaders;
      var move := it.hasAvatar && !it.avatarInHeader;
      var links := if move && it.hasChannelLink && it.avatarLinks == 0 then 1 else it.avatarLinks;
      var clones := if it.clonedNames == 0 && it.hasChannelRow then 1 else it.clonedNames;
      it.(customHeaders := headers, avatarInHeader := it.avatarInHeader || move,
          avatarLinks := links, clonedNames := clones, headerProcessed := true)
  }

  /**
   * The header step creates at most one header, one avatar link and one
   * cloned channel name, and never more than one of each in all.
   */
  lemma AddChannelHeaderAddsAtMostOne(it: Item, navigating: bool)
    ensures var r := AddChannelHeader(it, navigating);
            && it.customHeaders <= r.customHeaders <= it.customHeaders + 1
            && (r.headerProcessed && !it.headerProcessed ==> r.customHeaders >= 1)
            && it.avatarLinks <= r.avatarLinks <= it.avatarLinks + 1
            && it.clonedNames <= r.clonedNames <= it.clonedNames + 1
            && (AtMostOnce(it) ==> AtMostOnce(r))
  {
  }

  /** Once the header step has run, running it again with the same navigation state changes nothing */
  lemma AddChannelHeaderIdempotent(it: Item, navigating: bool)
    ensures AddChannelHeader(AddChannelHeader(it, navigating), navigating) == AddChannelHeader(it, navigating)
  {
  }

  /** The item has a watch link with a non-empty href (`titleLink && titleLink.href`) */
  predicate HasWatchLink(it: Item) {
    it.watchLink.Some? && it.watchLink.value != []
  }

  /**
   * The watch URL a visit queues a task for: only an item that is neither
   * described nor being fetched and has a watch link gets one.
   */
  function QueuedUrl(it: Item): (url: Option<string>)
    ensures url.Some? <==> !it.descAdded && !it.descFetching && HasWatchLink(it)
    ensures url.Some? ==> url == it.watchLink
  {
    if it.descAdded || it.descFetching || !HasWatchLink(it) then None else it.watchLink
  }

  /** The item after its turn in `processItems`, and the URL of the task queued for it, if any */
  datatype Visit = Visit(item: Item, url: Option<string>)

  /**
   * One item's turn in the `forEach` of `processItems`: the header step, then
   * a description task for the item's watch URL unless the item is already
   * described or being fetched, or has no watch link; queueing the task
   * marks the item as being fetched.
   */
  function VisitItem(it: Item, navigating: bool): (v: Visit)
    ensures v.url == QueuedUrl(it)
    ensures v.url.Some? ==> v.item.descFetching
    ensures v.url.None? ==> v.item.descFetching == it.descFetching
    ensures v.item.descAdded == it.descAdded && v.item.descriptions == it.descriptions
    ensures v.item.watchLink == it.watchLink
    ensures SameHeaderState(v.item, AddChannelHeader(it, navigating))
  {
    var h := AddChannelHeader(it, navigating);
    if h.descAdded || h.descFetching || !HasWatchLink(h) then Visit(h, None)
    else Visit(h.(descFetching := true), h.watchLink)
  }

  /** An item is queued at most once: a second visit never queues another task */
  lemma VisitQueuesOnce(it: Item, navigating: bool, navigating': bool)
    ensures VisitItem(VisitItem(it, navigating).item, navigating').url.None?
  {
  }

  /**
   * How a started description task ends: it returned at once because the
   * page was navigating when it started, it received the description that
   * `fetchDescription` resolved to, or the DOM update threw.
   */
  datatype Outcome = ReturnedEarly | Described(description: Option<string>) | Threw

  /** The description is non-null and not blank (`description && description.trim() !== ""`) */
  predicate Showable(d: Option<string>) {
    d.Some? && Text.Trim(d.value) != []
  }

  /**
   * The body of the task built by `addDescriptionToItem` after its fetch:
   * a showable description is inserted after the metadata row unless the
   * item already has a description element; on success and on error alike
   * the item is marked described and no longer being fetched. A task that
   * returned early leaves the item as it was, still marked as being fetched.
   */
  function FinishTask(it: Item, outcome: Outcome): (r: Item)
    ensures outcome.ReturnedEarly? ==> r == it
    ensures !outcome.ReturnedEarly? ==> r.descAdded && !r.descFetching
    ensures r.descriptions != it.descriptions <==>
              outcome.Described? && Showable(outcome.description) && it.hasMetadataRow && it.descriptions == []
    ensures r.descriptions != it.descriptions ==> r.descriptions == [outcome.description.value]
    ensures r.watchLink == it.watchLink && SameHeaderState(it, r)
    ensures AtMostOnce(it) ==> AtMostOnce(r)
  {
    match outcome
    case ReturnedEarly => it
    case Threw => it.(descAdded := true, descFetching := false)
    case Described(d) =>
      var shown := if Showable(d) && it.hasMetadataRow && it.descriptions == []
                   then it.descriptions + [d.value] else it.descriptions;
      it.(descriptions := shown, descAdded := true, descFetching := false)
  }

  /** An item whose task returned early stays marked as being fetched and is never queued again */
  lemma EarlyReturnStrandsItem(it: Item, navigating: bool)
    requires it.descFetching
    ensures FinishTask(it, ReturnedEarly).descFetching
    ensures VisitItem(FinishTask(it, ReturnedEarly), navigating).url.None?
  {
  }

  /** A finished task's item is never queued again */
  lemma FinishedNotRequeued(it: Item, outcome: Outcome, navigating: bool)
    requires !outcome.ReturnedEarly?
    ensures VisitItem(FinishTask(it, outcome), navigating).url.None?
  {
  }
}

=== FILE: fetch_queue.dfy ===
/**
 * `processFetchQueue`: a FIFO of pending tasks pumped into at most
 * `maxConcurrentFetches` running ones, counted by `activeFetches`. Starting
 * a task (`task()`) turns a queued task into a running one, given here as
 * the function `start`; a task's completion is an event of its own.
 */
module FetchQueue {

  /** `CONFIG.maxConcurrentFetches` */
  const MaxConcurrentFetches: nat := 10

  /** `fetchQueue`, `activeFetches`, and the tasks started and not yet settled */
  datatype Pool<Q, R> = Pool(queue: seq<Q>, active: nat, running: seq<R>)

  /** The counter counts exactly the running tasks and never exceeds the cap */
  predicate Valid<Q, R>(p: Pool<Q, R>, cap: nat) {
    p.active == |p.running| && p.active <= cap
  }

  /** The pump has nothing more to do: the queue is empty or every slot is taken */
  predicate Settled<Q, R>(p: Pool<Q, R>, cap: nat) {
    p.queue == [] || p.active >= cap
  }

  /** `start` applied to each task of `q`, in order */
  function StartAll<Q, R>(start: Q -> R, q: seq<Q>): (r: seq<R>)
    ensures |r| == |q| && forall i :: 0 <= i < |q| ==> r[i] == start(q[i])
  {
    seq(|q|, i requires 0 <= i < |q| => start(q[i]))
  }

  /** How many tasks one pump starts: as many as are queued, up to the free slots */
  function Room<Q, R>(p: Pool<Q, R>, cap: nat): (n: nat)
    ensures n <= |p.queue|
  {
    if p.active >= cap then 0
    else if |p.queue| < cap - p.active then |p.queue|
    else cap - p.active
  }

  /**
   * `processFetchQueue()`: while tasks are queued and a slot is free, take
   * the head of the queue, count it and start it. The tasks started are the
   * first `Room` of the queue, in queue order; the pump stops settled and
   * keeps the counter within the cap.
   */
  function Pump<Q, R>(p: Pool<Q, R>, cap: nat, start: Q -> R): (r: Pool<Q, R>)
    ensures var n := Room(p, cap);
            && r.queue == p.queue[n..]
            && r.active == p.active + n
            && r.running == p.running + StartAll(start, p.queue[..n])
    ensures Settled(r, cap)
    ensures Valid(p, cap) ==> Valid(r, cap)
    decreases |p.queue|
  {
    if |p.queue| > 0 && p.active < cap then
      var next := Pool(p.queue[1..], p.active + 1, p.running + [start(p.queue[0])]);
      var r := Pump(next, cap, start);
      var n := Room(p, cap);
      assert Room(next, cap) == n - 1;
      assert p.queue[1..][n - 1..] == p.queue[n..];
      assert [start(p.queue[0])] + StartAll(start, p.queue[1..][..n - 1]) == StartAll(start, p.queue[..n]);
      r
    else
      assert p.queue[..0] == [];
      p
  }

  /** `fetchQueue.push(task)` */
  function Enqueue<Q, R>(p: Pool<Q, R>, tasks: seq<Q>): (r: Pool<Q, R>)
    ensures r.queue == p.queue + tasks && r.active == p.active && r.running == p.running
  {
    p.(queue := p.queue + tasks)
  }

  /** The running tasks without the one at index `k` */
  function Without<R>(running: seq<R>, k: nat): (r: seq<R>)
    requires k < |running|
    ensures |r| == |running| - 1
    ensures running == r[..k] + [running[k]] + r[k..]
  {
    running[..k] + running[k + 1..]
  }

  /**
   * The `finally` of the task at index `k`: `activeFetches--`, then pump
   * again. From a settled pool, a completion frees exactly one slot and the
   * pump refills it with the head of the queue when there is one.
   */
  function Complete<Q, R>(p: Pool<Q, R>, k: nat, cap: nat, start: Q -> R): (r: Pool<Q, R>)
    requires Valid(p, cap) && k < |p.running|
    ensures Valid(r, cap) && Settled(r, cap)
    ensures Settled(p, cap) && p.queue == [] ==>
              r.queue == [] && r.active == p.active - 1 && r.running == Without(p.running, k)
    ensures Settled(p, cap) && p.queue != [] ==>
              r.queue == p.queue[1..] && r.active == p.active
              && r.running == Without(p.running, k) + [start(p.queue[0])]
  {
    Pump(Pool(p.queue, p.active - 1, Without(p.running, k)), cap, start)
  }

  /** Pumping a settled pool does nothing, so a second pump right after the first is a no-op */
  lemma PumpIdempotent<Q, R>(p: Pool<Q, R>, cap: nat, start: Q -> R)
    ensures Pump(Pump(p, cap, start), cap, start) == Pump(p, cap, start)
  {
    var r := Pump(p, cap, start);
    assert Room(r, cap) == 0;
    assert r.queue[..0] == [];
  }
}

=== FILE: meta_description.dfy ===
/**
 * `extractDescription`: the description of a watch page taken from its
 * `<meta name="description" content="...">` tag, with six HTML entities
 * decoded and surrounding white space trimmed.
 */
module MetaDescription {
  import opened Wrappers
  import opened Text

  /** The literal text the pattern must see before the captured group */
  const MetaPrefix: string := "<meta name=\"description\" content=\""

  /**
   * The regular expression `<meta name="description" content="([^"]*)"`
   * matches at index `i` of `html`, capturing `cap`: the prefix, then `cap`
   * (which holds no quote), then a closing quote.
   */
  ghost predicate MetaAt(html: string, i: int, cap: string) {
    && StartsAt(html, MetaPrefix, i)
    && i + |MetaPrefix| + |cap| < |html|
    && html[i + |MetaPrefix|..i + |MetaPrefix| + |cap|] == cap
    && html[i + |MetaPrefix| + |cap|] == '"'
    && '"' !in cap
  }

  /** The match at `i` is the leftmost one, which is the one `String.prototype.match` reports */
  ghost predicate LeftmostMetaAt(html: string, i: int, cap: string) {
    MetaAt(html, i, cap) && forall j, c :: 0 <= j < i ==> !MetaAt(html, j, c)
  }

  /** Index of the first quote at or after `k`, or `|s|` when there is none */
  function NextQuote(s: string, k: nat): (j: nat)
    requires k <= |s|
    ensures k <= j <= |s|
    ensures forall i :: k <= i < j ==> s[i] != '"'
    ensures j < |s| ==> s[j] == '"'
    decreases |s| - k
  {
    if k == |s| || s[k] == '"' then k else NextQuote(s, k + 1)
  }

  /** The capture of a match of the pattern attempted at index `i` */
  function MatchAt(html: string, i: nat): (r: Option<string>)
  {
    if StartsAt(html, MetaPrefix, i) then
      var k := i + |MetaPrefix|;
      var j := NextQuote(html, k);
      if j < |html| then Some(html[k..j]) else None
    else None
  }

  /** A match attempted at `i` succeeds with `cap` exactly when the pattern matches there with `cap` */
  lemma MatchAtIff(html: string, i: nat, cap: string)
    ensures MatchAt(html, i) == Some(cap) <==> MetaAt(html, i, cap)
  {
  }

  /** The leftmost match at index `i` or later (the regular expression's search loop) */
  function SearchFrom(html: string, i: nat): (r: Option<string>)
    decreases |html| - i
  {
    if i + |MetaPrefix| > |html| then None
    else if MatchAt(html, i).Some? then MatchAt(html, i)
    else SearchFrom(html, i + 1)
  }

  /** `html.match(...)`, reduced to its captured group */
  function Search(html: string): Option<string> {
    SearchFrom(html, 0)
  }

  /** The search from `i` finds nothing exactly when no match starts at `i` or later */
  lemma {:induction false} SearchFromNone(html: string, i: nat)
    ensures SearchFrom(html, i).None? <==> forall j, c :: i <= j && MetaAt(html, j, c) ==> false
    decreases |html| - i
  {
    if i + |MetaPrefix| > |html| {
    } else if MatchAt(html, i).Some? {
      MatchAtIff(html, i, MatchAt(html, i).value);
    } else {
      SearchFromNone(html, i + 1);
      forall c | MetaAt(html, i, c) ensures MatchAt(html, i) == Some(c) {
        MatchAtIff(html, i, c);
      }
    }
  }

  /** What the search from `i` finds is the leftmost match at `i` or later */
  lemma {:induction false} SearchFromSome(html: string, i: nat, j: nat, cap: string)
    requires i <= j && MetaAt(html, j, cap)
    requires forall n, c :: i <= n < j ==> !MetaAt(html, n, c)
    ensures SearchFrom(html, i) == Some(cap)
    decreases j - i
  {
    if i == j {
      MatchAtIff(html, i, cap);
    } else {
      if MatchAt(html, i).Some? {
        MatchAtIff(html, i, MatchAt(html, i).value);
      }
      SearchFromSome(html, i + 1, j, cap);
    }
  }

  /** What the search from `i` finds came from some match, with nothing before it */
  lemma {:induction false} SearchFromSound(html: string, i: nat)
    requires SearchFrom(html, i).Some?
    ensures exists j :: i <= j && MetaAt(html, j, SearchFrom(html, i).value)
                        && forall n, c :: i <= n < j ==> !MetaAt(html, n, c)
    decreases |html| - i
  {
    var cap := SearchFrom(html, i).value;
    if MatchAt(html, i).Some? {
      MatchAtIff(html, i, cap);
      assert MetaAt(html, i, cap);
    } else {
      SearchFromSound(html, i + 1);
      var j :| i + 1 <= j && MetaAt(html, j, cap) && forall n, c :: i + 1 <= n < j ==> !MetaAt(html, n, c);
      forall n, c | i <= n < j ensures !MetaAt(html, n, c) {
        if n == i {
          MatchAtIff(html, i, c);
        }
      }
    }
  }

  /** The search finds nothing exactly when the regular expression matches nowhere */
  lemma SearchNoneIff(html: string)
    ensures Search(html).None? <==> forall i, c :: !MetaAt(html, i, c)
  {
    SearchFromNone(html, 0);
  }

  /** What the search finds is the capture of the leftmost match, which never holds a quote */
  lemma SearchFindsLeftmost(html: string)
    requires Search(html).Some?
    ensures exists i :: LeftmostMetaAt(html, i, Search(html).value)
    ensures '"' !in Search(html).value
  {
    SearchFromSound(html, 0);
    var cap := Search(html).value;
    var j :| 0 <= j && MetaAt(html, j, cap) && forall n, c :: 0 <= n < j ==> !MetaAt(html, n, c);
    assert LeftmostMetaAt(html, j, cap);
  }

  /** The capture of the leftmost match is what the search finds */
  lemma LeftmostIsFound(html: string, i: int, c: string)
    requires LeftmostMetaAt(html, i, c)
    ensures Search(html) == Some(c)
  {
    SearchFromSome(html, 0, i, c);
  }

  /**
   * The six entity replacements, one global replace after another and in
   * this order; because `&amp;` goes first, its output is decoded again by
   * the later steps.
   */
  function DecodeEntities(s: string): (r: string)
    ensures |r| <= |s|
    ensures '&' !in s ==> r == s
  {
    var s1 := ReplaceAll(s, "&amp;", "&");
    var s2 := ReplaceAll(s1, "&lt;", "<");
    var s3 := ReplaceAll(s2, "&gt;", ">");
    var s4 := ReplaceAll(s3, "&quot;", "\"");
    var s5 := ReplaceAll(s4, "&#39;", "'");
    var r := ReplaceAll(s5, "&nbsp;", " ");
    EntityStep(s, "&amp;", "&");
    EntityStep(s1, "&lt;", "<");
    EntityStep(s2, "&gt;", ">");
    EntityStep(s3, "&quot;", "\"");
    EntityStep(s4, "&#39;", "'");
    EntityStep(s5, "&nbsp;", " ");
    r
  }

  /** One replacement step never lengthens the text and leaves text without `&` alone */
  lemma EntityStep(s: string, pat: string, rep: string)
    requires pat != [] && pat[0] == '&' && |rep| <= |pat|
    ensures |ReplaceAll(s, pat, rep)| <= |s|
    ensures '&' !in s ==> ReplaceAll(s, pat, rep) == s
  {
    ReplaceAllShorter(s, pat, rep);
    OccursHead(s, pat);
    ReplaceAllAbsent(s, pat, rep);
  }

  /** Text in which none of the six entities occurs is not changed by decoding */
  lemma DecodeEntityFree(s: string)
    requires !Occurs(s, "&amp;") && !Occurs(s, "&lt;") && !Occurs(s, "&gt;")
    requires !Occurs(s, "&quot;") && !Occurs(s, "&#39;") && !Occurs(s, "&nbsp;")
    ensures DecodeEntities(s) == s
  {
    ReplaceAllAbsent(s, "&amp;", "&");
    ReplaceAllAbsent(s, "&lt;", "<");
    ReplaceAllAbsent(s, "&gt;", ">");
    ReplaceAllAbsent(s, "&quot;", "\"");
    ReplaceAllAbsent(s, "&#39;", "'");
    ReplaceAllAbsent(s, "&nbsp;", " ");
  }

  /** `extractDescription(html)`; None is the script's `null` */
  function ExtractDescription(html: string): (r: Option<string>)
    ensures r.Some? ==> Trimmed(r.value)
  {
    match Search(html)
    case None => None
    case Some(cap) => if cap == [] then None else Some(Trim(DecodeEntities(cap)))
  }

  /**
   * The result is null exactly when there is no match, or the leftmost
   * match captured nothing; otherwise it is the decoded, trimmed capture of
   * the leftmost match, a capture without quotes.
   */
  lemma ExtractDescriptionSpec(html: string)
    ensures ExtractDescription(html).None? <==> forall i, c :: LeftmostMetaAt(html, i, c) ==> c == []
    ensures forall i, c :: LeftmostMetaAt(html, i, c) && c != [] ==>
              ExtractDescription(html) == Some(Trim(DecodeEntities(c))) && '"' !in c
  {
    if Search(html).Some? {
      SearchFindsLeftmost(html);
    }
    forall i, c | LeftmostMetaAt(html, i, c) ensures Search(html) == Some(c) {
      LeftmostIsFound(html, i, c);
    }
  }

  /** Text without an ampersand passes through decoding untouched, so only trimming changes it */
  lemma PlainDescription(html: string, i: int, c: string)
    requires LeftmostMetaAt(html, i, c) && c != [] && '&' !in c
    ensures ExtractDescription(html) == Some(Trim(c))
    ensures '"' !in ExtractDescription(html).value
  {
    LeftmostIsFound(html, i, c);
    TrimKeepsAbsent(c, '"');
  }

  /** An entity replaced at the front of a text with no other `&` leaves just its replacement */
  lemma EntityHit(pat: string, rep: string)
    requires pat != [] && pat[0] == '&' && |rep| <= |pat|
    ensures ReplaceAll(pat, pat, rep) == rep
  {
    ReplaceAllHit(pat, pat, rep);
    assert pat[|pat|..] == [];
  }

  /** A text whose only `&` is its first character, where `pat` does not start, is left alone */
  lemma EntityMiss(s: string, pat: string, rep: string)
    requires pat != [] && pat[0] == '&' && |rep| <= |pat|
    requires s != [] && !StartsAt(s, pat, 0) && '&' !in s[1..]
    ensures ReplaceAll(s, pat, rep) == s
  {
    ReplaceAllSkip(s, pat, rep);
    EntityStep(s[1..], pat, rep);
    assert s == [s[0]] + s[1..];
  }

  /** `&amp;` decodes to `&` */
  lemma DecodeAmpersand()
    ensures DecodeEntities("&amp;") == "&"
  {
    EntityHit("&amp;", "&");
    assert !StartsAt("&", "&lt;", 0);
    assert !StartsAt("&", "&gt;", 0);
    assert !StartsAt("&", "&quot;", 0);
    assert !StartsAt("&", "&#39;", 0);
    assert !StartsAt("&", "&nbsp;", 0);
    EntityMiss("&", "&lt;", "<");
    EntityMiss("&", "&gt;", ">");
    EntityMiss("&", "&quot;", "\"");
    EntityMiss("&", "&#39;", "'");
    EntityMiss("&", "&nbsp;", " ");
  }

  /** `&lt;` decodes to `<` */
  lemma DecodeLessThan()
    ensures DecodeEntities("&lt;") == "<"
  {
    assert !StartsAt("&lt;", "&amp;", 0);
    EntityMiss("&lt;", "&amp;", "&");
    EntityHit("&lt;", "<");
  }

  /** `&gt;` passes the `&amp;` and `&lt;` steps untouched and decodes to `>` */
  lemma DecodeGreaterThan()
    ensures DecodeEntities("&gt;") == ">"
  {
    assert !StartsAt("&gt;", "&amp;", 0);
    assert !StartsAt("&gt;", "&lt;", 0) by { assert "&gt;"[1] != "&lt;"[1]; }
    EntityMiss("&gt;", "&amp;", "&");
    EntityMiss("&gt;", "&lt;", "<");
    EntityHit("&gt;", ">");
  }

  /** `&quot;` decodes to a quote */
  lemma DecodeQuote()
    ensures DecodeEntities("&quot;") == "\""
  {
    var q := "&quot;";
    assert !StartsAt(q, "&amp;", 0) by { assert q[1] != "&amp;"[1]; }
    assert !StartsAt(q, "&lt;", 0) by { assert q[1] != "&lt;"[1]; }
    assert !StartsAt(q, "&gt;", 0) by { assert q[1] != "&gt;"[1]; }
    EntityMiss(q, "&amp;", "&");
    EntityMiss(q, "&lt;", "<");
    EntityMiss(q, "&gt;", ">");
    EntityHit(q, "\"");
  }

  /** `&#39;` decodes to an apostrophe */
  lemma DecodeApostrophe()
    ensures DecodeEntities("&#39;") == "'"
  {
    var a := "&#39;";
    assert !StartsAt(a, "&amp;", 0) by { assert a[1] != "&amp;"[1]; }
    assert !StartsAt(a, "&lt;", 0) by { assert a[1] != "&lt;"[1]; }
    assert !StartsAt(a, "&gt;", 0) by { assert a[1] != "&gt;"[1]; }
    assert !StartsAt(a, "&quot;", 0);
    EntityMiss(a, "&amp;", "&");
    EntityMiss(a, "&lt;", "<");
    EntityMiss(a, "&gt;", ">");
    EntityMiss(a, "&quot;", "\"");
    EntityHit(a, "'");
  }

  /** `&nbsp;` decodes to a plain space, which `trim` then treats as white space */
  lemma DecodeNonBreakingSpace()
    ensures DecodeEntities("&nbsp;") == " "
  {
    var n := "&nbsp;";
    assert !StartsAt(n, "&amp;", 0) by { assert n[1] != "&amp;"[1]; }
    assert !StartsAt(n, "&lt;", 0) by { assert n[1] != "&lt;"[1]; }
    assert !StartsAt(n, "&gt;", 0) by { assert n[1] != "&gt;"[1]; }
    assert !StartsAt(n, "&quot;", 0) by { assert n[1] != "&quot;"[1]; }
    assert !StartsAt(n, "&#39;", 0) by { assert n[1] != "&#39;"[1]; }
    EntityMiss(n, "&amp;", "&");
    EntityMiss(n, "&lt;", "<");
    EntityMiss(n, "&gt;", ">");
    EntityMiss(n, "&quot;", "\"");
    EntityMiss(n, "&#39;", "'");
    EntityHit(n, " ");
  }

  /** `&amp;lt;` is decoded twice: first to `&lt;`, then to `<` */
  lemma DoubleDecoding()
    ensures DecodeEntities("&amp;lt;") == "<"
  {
    var d := "&amp;lt;";
    ReplaceAllLeftmost(d, "&amp;", "&", 0);
    assert d[5..] == "lt;";
    EntityStep("lt;", "&amp;", "&");
    EntityHit("&lt;", "<");
  }
}

=== FILE: page_attribute.dfy ===
/**
 * `ensurePageAttribute` and its inputs: whether the subsystem is enabled,
 * whether the tab shows the subscriptions feed, and the `page-subtype`
 * attribute of the `ytd-browse` element that switches the list layout on.
 */
module PageAttribute {
  import opened Wrappers
  import Text

  /** The URL fragment that identifies the subscriptions feed */
  const SubscriptionsPath: string := "/feed/subscriptions"

  /** The `page-subtype` value that the list layout's style sheet keys on */
  const SubscriptionsSubtype: string := "subscriptions"

  /** `isSubscriptionsPage()`: the page URL contains the subscriptions path anywhere */
  function IsSubscriptionsPage(href: string): (r: bool)
    ensures r <==> Text.Occurs(href, SubscriptionsPath)
  {
    Text.Includes(href, SubscriptionsPath)
  }

  /** `result.enabled !== false`: a missing setting counts as enabled */
  function IsEnabled(stored: Option<bool>): bool {
    stored != Some(false)
  }

  /**
   * The new value of `page-subtype` (None: attribute absent). Nothing is
   * touched while navigating or when there is no `ytd-browse` element; the
   * attribute is set to `subscriptions` when enabled on the subscriptions
   * feed, and otherwise removed only if it holds `subscriptions`.
   */
  function EnsurePageAttribute(navigating: bool, browse: bool, enabled: bool, onSubscriptions: bool,
                               current: Option<string>): (r: Option<string>)
    ensures navigating || !browse ==> r == current
    ensures !navigating && browse ==> (r == Some(SubscriptionsSubtype) <==> enabled && onSubscriptions)
    ensures current != Some(SubscriptionsSubtype) && !(enabled && onSubscriptions) ==> r == current
    ensures r == current || r == Some(SubscriptionsSubtype) || (r == None && current == Some(SubscriptionsSubtype))
  {
    if navigating || !browse then current
    else if enabled && onSubscriptions then
      (if current != Some(SubscriptionsSubtype) then Some(SubscriptionsSubtype) else current)
    else
      (if current == Some(SubscriptionsSubtype) then None else current)
  }

  /** Applying the decision a second time changes nothing */
  lemma EnsurePageAttributeIdempotent(navigating: bool, browse: bool, enabled: bool, onSubscriptions: bool,
                                      current: Option<string>)
    ensures var once := EnsurePageAttribute(navigating, browse, enabled, onSubscriptions, current);
            EnsurePageAttribute(navigating, browse, enabled, onSubscriptions, once) == once
  {
  }
}

=== FILE: text.dfy ===
/**
 * The string operations the content script relies on, with JavaScript's
 * meaning: `String.prototype.includes`, a global `replace` of a literal
 * pattern, and `String.prototype.trim`.
 */
module Text {

  /** `pat` occurs in `s` starting at index `i` */
  predicate StartsAt(s: string, pat: string, i: int) {
    0 <= i && i + |pat| <= |s| && s[i..i + |pat|] == pat
  }

  /** `pat` occurs somewhere in `s` */
  ghost predicate Occurs(s: string, pat: string) {
    exists i :: StartsAt(s, pat, i)
  }

  /** Whether `pat` occurs in `s` at an index `k` or later */
  function IncludesFrom(s: string, pat: string, k: nat): (r: bool)
    ensures r <==> exists i :: k <= i && StartsAt(s, pat, i)
    decreases |s| - k
  {
    if k + |pat| > |s| then false
    else if StartsAt(s, pat, k) then true
    else
      var rest := IncludesFrom(s, pat, k + 1);
      assert forall i :: k <= i && StartsAt(s, pat, i) ==> i == k || k + 1 <= i;
      rest
  }

  /** `s.includes(pat)` */
  function Includes(s: string, pat: string): (r: bool)
    ensures r <==> Occurs(s, pat)
  {
    IncludesFrom(s, pat, 0)
  }

  /**
   * `s.replace(/pat/g, rep)` for a pattern without special characters:
   * occurrences are found from left to right and do not overlap, and the
   * text that `rep` contributes is never searched again. What it computes is
   * stated by the lemmas below: `ReplaceAllAbsent` and `ReplaceAllLeftmost`
   * together determine the result for every input.
   */
  function ReplaceAll(s: string, pat: string, rep: string): (r: string)
    requires pat != []
    decreases |s|
  {
    if |s| < |pat| then s
    else if s[..|pat|] == pat then rep + ReplaceAll(s[|pat|..], pat, rep)
    else [s[0]] + ReplaceAll(s[1..], pat, rep)
  }

  /** An occurrence in a suffix of `s` is an occurrence in `s` */
  lemma ShiftOccurs(s: string, pat: string)
    requires s != []
    ensures Occurs(s[1..], pat) ==> Occurs(s, pat)
  {
    if Occurs(s[1..], pat) {
      var i :| StartsAt(s[1..], pat, i);
      assert s[1..][i..i + |pat|] == s[i + 1..i + 1 + |pat|];
      assert StartsAt(s, pat, i + 1);
    }
  }

  /** Text in which the pattern does not occur is left unchanged */
  lemma {:induction false} ReplaceAllAbsent(s: string, pat: string, rep: string)
    requires pat != []
    ensures !Occurs(s, pat) ==> ReplaceAll(s, pat, rep) == s
    decreases |s|
  {
    if !Occurs(s, pat) && |s| >= |pat| {
      assert !StartsAt(s, pat, 0);
      ShiftOccurs(s, pat);
      ReplaceAllAbsent(s[1..], pat, rep);
      assert s == [s[0]] + s[1..];
    }
  }

  /**
   * The replacement starts at the leftmost occurrence: when `pat` first
   * occurs at index `k`, everything before it is kept, that occurrence
   * becomes `rep`, and the replacement goes on after it.
   */
  lemma ReplaceAllLeftmost(s: string, pat: string, rep: string, k: nat)
    requires pat != [] && StartsAt(s, pat, k)
    requires forall i :: 0 <= i < k ==> !StartsAt(s, pat, i)
    ensures ReplaceAll(s, pat, rep) == s[..k] + rep + ReplaceAll(s[k + |pat|..], pat, rep)
  {
    var tail := ReplaceAll(s[k + |pat|..], pat, rep);
    calc {
      ReplaceAll(s, pat, rep);
    == { ReplaceAllPrefix(s, pat, rep, k); }
      s[..k] + ReplaceAll(s[k..], pat, rep);
    == { StartsAtSuffix(s, pat, k);
         ReplaceAllHit(s[k..], pat, rep);
         assert s[k..][|pat|..] == s[k + |pat|..]; }
      s[..k] + (rep + tail);
    == { SeqAssoc(s[..k], rep, tail); }
      s[..k] + rep + tail;
    }
  }

  /** A replacement no longer than the pattern never lengthens the text */
  lemma {:induction false} ReplaceAllShorter(s: string, pat: string, rep: string)
    requires pat != [] && |rep| <= |pat|
    ensures |ReplaceAll(s, pat, rep)| <= |s|
    decreases |s|
  {
    if |s| >= |pat| {
      if s[..|pat|] == pat {
        ReplaceAllShorter(s[|pat|..], pat, rep);
      } else {
        ReplaceAllShorter(s[1..], pat, rep);
      }
    }
  }

  /** A global replace introduces only characters of the input or of the replacement */
  lemma {:induction false} ReplaceAllChars(s: string, pat: string, rep: string)
    requires pat != []
    ensures forall c :: c in ReplaceAll(s, pat, rep) ==> c in s || c in rep
    decreases |s|
  {
    if |s| >= |pat| {
      if s[..|pat|] == pat {
        ReplaceAllChars(s[|pat|..], pat, rep);
        assert forall c :: c in s[|pat|..] ==> c in s;
      } else {
        ReplaceAllChars(s[1..], pat, rep);
        assert forall c :: c in s[1..] ==> c in s;
      }
    }
  }

  /** Concatenation is associative */
  lemma SeqAssoc(a: string, b: string, c: string)
    ensures a + (b + c) == a + b + c
  {
  }

  /** A prefix in which no occurrence starts is kept as it is */
  lemma {:induction false} ReplaceAllPrefix(s: string, pat: string, rep: string, j: nat)
    requires pat != [] && j <= |s|
    requires forall i :: 0 <= i < j ==> !StartsAt(s, pat, i)
    ensures ReplaceAll(s, pat, rep) == s[..j] + ReplaceAll(s[j..], pat, rep)
  {
    if j > 0 {
      var u, tail := s[j - 1..], ReplaceAll(s[j..], pat, rep);
      calc {
        ReplaceAll(s, pat, rep);
      == { ReplaceAllPrefix(s, pat, rep, j - 1); }
        s[..j - 1] + ReplaceAll(u, pat, rep);
      == { StartsAtSuffix(s, pat, j - 1);
           ReplaceAllSkip(u, pat, rep);
           assert u[1..] == s[j..]; }
        s[..j - 1] + ([s[j - 1]] + tail);
      == { assert s[..j] == s[..j - 1] + [s[j - 1]]; }
        s[..j] + tail;
      }
    }
  }

  /** An occurrence at the front becomes `rep` */
  lemma ReplaceAllHit(s: string, pat: string, rep: string)
    requires pat != [] && StartsAt(s, pat, 0)
    ensures ReplaceAll(s, pat, rep) == rep + ReplaceAll(s[|pat|..], pat, rep)
  {
  }

  /** Where no occurrence starts at the front, the first character is kept */
  lemma ReplaceAllSkip(s: string, pat: string, rep: string)
    requires pat != [] && s != [] && !StartsAt(s, pat, 0)
    ensures ReplaceAll(s, pat, rep) == [s[0]] + ReplaceAll(s[1..], pat, rep)
  {
  }

  /** An occurrence at the front of a suffix is an occurrence in `s` where the suffix starts */
  lemma StartsAtSuffix(s: string, pat: string, j: nat)
    requires j <= |s|
    ensures StartsAt(s[j..], pat, 0) <==> StartsAt(s, pat, j)
  {
    if j + |pat| <= |s| {
      assert s[j..][..|pat|] == s[j..j + |pat|];
    }
  }

  /** Every occurrence of `pat` in `s` puts its first character in `s` */
  lemma OccursHead(s: string, pat: string)
    requires pat != []
    ensures Occurs(s, pat) ==> pat[0] in s
  {
    if Occurs(s, pat) {
      var i :| StartsAt(s, pat, i);
      assert s[i..i + |pat|][0] == s[i];
    }
  }

  /**
   * White space as JavaScript's `trim` removes it: the WhiteSpace and
   * LineTerminator characters of ECMA-262 (tab, vertical tab, form feed,
   * every space separator, the byte order mark, LF, CR, U+2028, U+2029).
   */
  predicate IsSpace(c: char) {
    || c == '\t' || c == '\n' || c == '\U{B}' || c == '\U{C}' || c == '\r'
    || c == ' ' || c == '\U{A0}' || c == '\U{1680}' || ('\U{2000}' <= c <= '\U{200A}')
    || c == '\U{2028}' || c == '\U{2029}' || c == '\U{202F}' || c == '\U{205F}'
    || c == '\U{3000}' || c == '\U{FEFF}'
  }

  predicate AllSpace(s: string) {
    forall i :: 0 <= i < |s| ==> IsSpace(s[i])
  }

  /** `s` neither starts nor ends with white space */
  predicate Trimmed(s: string) {
    s == [] || (!IsSpace(s[0]) && !IsSpace(s[|s| - 1]))
  }

  /** `r` is the text of `s` between a white-space prefix at `a` and a white-space suffix */
  predicate CutAt(s: string, a: int, r: string) {
    0 <= a && a + |r| <= |s| && s[a..a + |r|] == r && AllSpace(s[..a]) && AllSpace(s[a + |r|..])
  }

  /** Length of the white-space run at the start of `s` */
  function LeadingSpace(s: string): (k: nat)
    ensures k <= |s|
    ensures forall i :: 0 <= i < k ==> IsSpace(s[i])
    ensures k < |s| ==> !IsSpace(s[k])
  {
    if s == [] || !IsSpace(s[0]) then 0 else 1 + LeadingSpace(s[1..])
  }

  /** Length of the white-space run at the end of `s` */
  function TrailingSpace(s: string): (k: nat)
    ensures k <= |s|
    ensures forall i :: |s| - k <= i < |s| ==> IsSpace(s[i])
    ensures k < |s| ==> !IsSpace(s[|s| - k - 1])
  {
    if s == [] || !IsSpace(s[|s| - 1]) then 0 else 1 + TrailingSpace(s[..|s| - 1])
  }

  /** `s.trim()` */
  function Trim(s: string): (r: string)
    ensures Trimmed(r)
    ensures exists a :: CutAt(s, a, r)
  {
    var a := LeadingSpace(s);
    if a == |s| then
      assert CutAt(s, 0, []);
      []
    else
      var b := |s| - TrailingSpace(s);
      assert a < b;
      assert CutAt(s, a, s[a..b]);
      s[a..b]
  }

  /**
   * Trim is characterised by its two promises: whatever text is obtained by
   * cutting white space off both ends of `s` until neither end is white
   * space is exactly `Trim(s)`.
   */
  lemma TrimUnique(s: string, a: int, r: string)
    requires CutAt(s, a, r) && Trimmed(r)
    ensures Trim(s) == r
  {
    var k := LeadingSpace(s);
    if r == [] {
      assert forall i :: 0 <= i < |s| ==> IsSpace(s[i]) by {
        forall i | 0 <= i < |s| ensures IsSpace(s[i]) {
          if i < a { assert s[..a][i] == s[i]; }
          else { assert s[a..][i - a] == s[i]; }
        }
      }
      assert k == |s|;
    } else {
      assert s[a] == r[0];
      assert forall i :: 0 <= i < a ==> IsSpace(s[i]) by {
        forall i | 0 <= i < a ensures IsSpace(s[i]) { assert s[..a][i] == s[i]; }
      }
      assert k == a;
      var t := TrailingSpace(s);
      var e := a + |r|;
      assert s[e - 1] == r[|r| - 1];
      assert forall i :: e <= i < |s| ==> IsSpace(s[i]) by {
        forall i | e <= i < |s| ensures IsSpace(s[i]) { assert s[e..][i - e] == s[i]; }
      }
      assert |s| - t == e;
    }
  }

  /** Trimming only removes characters */
  lemma TrimKeepsAbsent(s: string, c: char)
    requires c !in s
    ensures c !in Trim(s)
  {
    var a :| CutAt(s, a, Trim(s));
    forall n | 0 <= n < |Trim(s)| ensures Trim(s)[n] != c {
      assert Trim(s)[n] == s[a + n];
    }
  }

  lemma TrimIdempotent(s: string)
    ensures Trim(Trim(s)) == Trim(s)
  {
    var r := Trim(s);
    assert CutAt(r, 0, r);
    TrimUnique(r, 0, r);
  }
}

=== FILE: wrappers.dfy ===
/** The optional value used wherever the script uses `null` or a missing entry. */
module Wrappers {

  datatype Option<+T> = None | Some(value: T)
}
